=== FILE: README.md ===
# Retro Snake: the game simulation in Dafny

This project models the Snake game held in the `App` React component. The game
runs on a 20 x 20 board. The snake is a list of cells, head first. An interval
fires the game loop every `speed` milliseconds. Each firing moves the head one
cell in the current heading. A wall or self collision ends the game. Reaching
the food grows the snake by one, adds one to the score, and shortens the period
by 5 ms down to 50 ms. The arrow keys change the heading unless the key asks for
the exact reverse. The start button resets everything.

Each React state slot is a field of an immutable `State`. Each handler is a pure
function:

- `Game.Tick` is the game loop.
- `Game.Start` is the start and restart button.
- `Game.HandleKeyDown` is the key handler.
- `Game.PlaceFood` is the food generator.

The random source is the parameter `draws`, the sequence of cells that
successive `Math.random` samples would produce. `PlaceFood` returns the first
sample that misses the snake it is given, which is rejection sampling as the
do-while loop performs it. An operation that places food requires a stream in
which some sample is free.

Files:
- `types.dfy` (module `Types`): `Coords`, `Direction`, `Option`, and the
  opposite heading.
- `game.dfy` (module `Game`): the constants, the state, the status the view
  derives, and the operations.
- `tick_properties.dfy` (module `TickProperties`): what one tick does, case by
  case, and the double key press that reverses the snake.
- `runs.dfy` (module `Runs`): events (key presses, interval firings and
  button clicks), when each can arrive, runs of them, and what a run of
  firings does to a lone segment heading right.
- `invariants.dfy` (module `Invariants`): the invariant of every reachable
  state, kept by every run from the freshly mounted component.
- `food_placement.dfy` (module `FoodPlacement`): the food-placement findings,
  the code as written next to the corrected version.

Three details of the code shape the model:
- A key press changes the heading at once. The game keeps no pending
  direction.
- The self-collision test checks indices 1 and up of the snake before the
  tick. This gives the same outcome as checking every segment, because the new
  head never equals the old one (`TickProperties.HitsBodyIffOnSnake`).
- New food avoids the snake as it was before the tick, and on restart the
  snake as it was before the reset. It does not avoid the snake that results.
  See "Findings".

## Model

| member | source | states |
|---|---|---|
| Game.Move | src/App.tsx:69-74 | The new head is exactly one unit (Manhattan distance 1) from the old head. A vertical heading keeps the column and a horizontal one keeps the row. |
| Game.SelfCollision | src/App.tsx:84-90 | The self-collision loop reports a hit exactly when the new head equals a segment at index 1 or higher. A hit needs at least two segments. |
| Game.SpeedAfterFood | src/App.tsx:97 | The speed updater keeps a truthy period and drops a null or zero one. A kept period is at least 50. It is 5 lower when that stays at or above 50, and otherwise it is 50. |
| Game.PlaceFood | src/App.tsx:21-28 | The chosen food is on the board and not a cell of the snake passed in. It is the first sample in the stream that misses that snake; every earlier sample hit the snake. |
| Game.Start | src/App.tsx:32-39 | Starting gives the running status with the over-flag cleared, the snake `[(10,10)]`, speed 200, score 0 and heading RIGHT. The food is on the board and off the snake as it was before the reset. |
| Game.HandleKeyDown | src/App.tsx:41-56 | Only the heading can change, and it never becomes the opposite of the current one. An arrow key is accepted if and only if it does not ask for the opposite heading. A rejected key and any other key change nothing. |
| Game.Tick | src/App.tsx:65-104 | With no interval a tick changes nothing, and it never changes the heading. Length stays the same or grows by one, exactly matching the score gained. Ending the game clears the speed and leaves snake and food alone. A moved snake has its new head one unit from the old head, and its body is a prefix of the old snake. New food lies on the board and off the old snake, and comes with a score point. |
| TickProperties.WallCollisionEndsGame | src/App.tsx:76-81 | A new head off the board sets game-over and clears the speed. Snake, score, food and heading stay unchanged. |
| TickProperties.SelfCollisionEndsGame | src/App.tsx:83-90 | A new head equal to any segment at index 1 or higher sets game-over and clears the speed. Everything else stays unchanged. |
| TickProperties.MovingOntoTailEndsGame | src/App.tsx:84-90 | Moving onto the current tail cell ends the game and leaves the snake unchanged, even though the tail would have moved away. |
| TickProperties.HitsBodyIffOnSnake | src/App.tsx:84-90 | The new head hits a segment at index 1 or higher exactly when it lands anywhere on the snake, so skipping index 0 loses nothing. |
| TickProperties.PlainMove | src/App.tsx:92-103 | A tick that neither collides nor eats gives `[newHead] + snake[..len-1]`. Length is kept, and score, speed, food, heading and flag are untouched. |
| TickProperties.Eating | src/App.tsx:92-98 | An eating tick gives `[newHead] + snake`, so the length grows by one. The score goes up by one and the speed becomes `max(50, speed - 5)`. The food comes from sampling against the old snake. |
| TickProperties.HeadStep | src/App.tsx:66-74 | After a non-colliding tick the head is the old head moved one unit: UP is y-1, DOWN y+1, LEFT x-1, RIGHT x+1. |
| TickProperties.MoveThenOppositeReturns | src/App.tsx:69-74 | A step never stays on its cell, and a step in the opposite heading undoes it. |
| TickProperties.TickWithoutIntervalIsNoOp | src/App.tsx:106 | With a null speed no interval is scheduled, so a tick leaves the state identical. |
| TickProperties.QuickTurnReversesSnake | src/App.tsx:41-56 | The guard only compares with the heading of the moment. Pressing UP then LEFT between two ticks while heading RIGHT therefore reverses the snake, and the next tick ends the game. |
| Invariants.MountedInv | src/App.tsx:14-19 | The initial slot values satisfy the invariant and show the start overlay. |
| Invariants.StatusUnderInv | src/App.tsx:120-134 | Under the invariant the status is Running exactly when a speed is set, and GameOver exactly when the flag is set. |
| Invariants.StartClickOnlyOnOverlay | src/App.tsx:120-146 | The start and restart buttons live on the two overlays, so under the invariant a click can arrive exactly when no interval is scheduled, given samples that can end the food loop. |
| Invariants.GrownDistinct | src/App.tsx:84-100 | If the head passes the self-collision test, prepending it keeps a distinct snake distinct, with or without the tail. |
| Invariants.TickPreservesInv | src/App.tsx:65-104 | Every tick keeps the invariant: non-empty snake, all cells in bounds and pairwise distinct, length = score + 1, and food on the board. A set speed equals `max(50, 200 - 5 * score)`, so it lies in [50, 200], and a finished game has no speed. |
| Invariants.StartEstablishesInv | src/App.tsx:32-39 | Start establishes the invariant from any state. |
| Invariants.KeyPreservesInv | src/App.tsx:41-56 | A key press keeps the invariant. |
| Invariants.RunPreservesInv | src/App.tsx:32-106 | Any feasible sequence of key presses, ticks and start clicks keeps the invariant. |
| Invariants.Reachable | src/App.tsx:10-104 | Starting from the mounted component, whatever the player and random source do, the snake stays in bounds and distinct, is one longer than the score, and a set speed stays in [50, 200]. |
| FoodPlacement.EatenFoodCanLandOnHead | src/App.tsx:95-98 | As written, starting from the mounted component: a start with the food drawn at (11,10), then one tick with the sample (11,10), eats at (11,10) and puts the new food under the new head. |
| Runs.GlideRight | src/App.tsx:69-100 | A one-segment snake heading right with no food in its way moves n cells along its row in n ticks while it stays on the board. |
| FoodPlacement.LostGameEndsAtWall | src/App.tsx:76-81 | Starting from the mounted component with food at (0,0), ten ticks end the game at the right wall with the snake at (19,10). |
| FoodPlacement.RestartOnFreeStartCell | src/App.tsx:32-34 | As written: after any run that ends on the start or game-over overlay and leaves (10,10) free, restarting with the sample (10,10) puts the food under the new snake `[(10,10)]`. |
| FoodPlacement.RestartFoodCanLandOnSnake | src/App.tsx:32-34 | As written: restarting the game lost at the wall, with the sample (10,10), puts the food under the new snake. |
| FoodPlacement.FullBoardBlocksRestart | src/App.tsx:23-28 | As written: when the snake before the reset covers every cell of the board, no stream of samples ends the rejection loop, so no restart click can complete. |
| FoodPlacement.TickFixed | src/App.tsx:92-98 | Corrected: placing food against the snake after the tick gives the same snake, score, speed and flag. It keeps the food off the snake whenever it started off the snake. |
| FoodPlacement.StartFixed | src/App.tsx:32-34 | Corrected: placing food against the new snake gives, whatever the state before the click, a running state that satisfies the invariant, with the food off the snake. |
| FoodPlacement.StartFixedFinishes | src/App.tsx:32-34 | Corrected: from any state, a full board included, every sample other than (10,10) ends the loop; the food lands on that sample and the invariant holds. |
| FoodPlacement.TickFixedPreserves | src/App.tsx:92-103 | With the corrected placement a tick keeps both the game invariant and the food being off the snake. |

## Findings

| source | as written | input that shows it | evidently intended | confidence | as-written member | corrected member |
|---|---|---|---|---|---|---|
| src/App.tsx:21-30, 95-98 | `generateFood` closes over the render-time `snake`. After eating, the new food only avoids the snake before the tick, so it can land on the new head. | from the mounted state: start with sample (11,10), then one tick with sample (11,10) | new food avoids every cell of the grown snake | high, not executed | FoodPlacement.EatenFoodCanLandOnHead | FoodPlacement.TickFixed |
| src/App.tsx:32-34 | `startGame` calls `generateFood` before the reset takes effect, so the food avoids the old snake, not `[(10,10)]` | from the mounted state: start with sample (0,0), ten ticks into the right wall (snake at (19,10)), restart with sample (10,10) | food avoids the starting cell (10,10) | high, not executed | FoodPlacement.RestartFoodCanLandOnSnake | FoodPlacement.StartFixed |
| src/App.tsx:23-28, 34 | the restart samples against the old snake; after the snake has filled all 400 cells (a 399-cell snake eats the last free cell, and the next tick collides), every sample hits it and the do-while never exits | a game-over state whose snake covers the board, then a restart click | the restart samples against `[(10,10)]` and finishes | medium, not executed | FoodPlacement.FullBoardBlocksRestart | FoodPlacement.StartFixedFinishes |

`Game.Tick` and `Game.Start` keep the code's behaviour, and the invariant
results are proved about them. The invariant holds with either placement.
`FoodPlacement.TickFixedPreserves` and `FoodPlacement.StartFixed` show that the
corrected placement also keeps the food off the snake.

## Left out

- Rendering: the JSX and the per-cell projection (src/App.tsx:108-165) are left out as view code. One piece of logic in it is modelled: the start and restart buttons exist only on the start and game-over overlays (src/App.tsx:120-149), so `Runs.Enabled` admits a start click only when the status is not Running (`Invariants.StartClickOnlyOnOverlay`).
- Event plumbing: registering the keydown listener (src/App.tsx:58-63) is left out. Events reach the model as explicit `Runs.Event` values.
- `useInterval` scheduling (src/App.tsx:106): the hook's source is not part of this model. A tick with a null speed is modelled as a no-op, following the usual convention that a null delay schedules nothing. Timer periods and concurrency are not modelled.
- `tailwind.config.js` holds styling only.
- Game.PlaceFood: the uniform distribution and the probability-one termination of the `Math.random` loop are not modelled. The samples are a finite parameter in which some sample is free, and each sample is taken to be on the board, as `floor(random() * 20)` is. Floating point is not modelled.
- Game.Start: requires a stream with a free sample against the snake before the reset. When that snake covers the whole board the code's loop never exits, and the model has no result for that case; `FoodPlacement.FullBoardBlocksRestart` states that no stream qualifies then, and `FoodPlacement.StartFixedFinishes` shows that the corrected restart always finishes.
- FoodPlacement.TickFixed: requires a free sample against the grown snake. An eating tick that fills all 400 cells leaves none, and the code has no win condition for that case, so the model leaves that single tick out.
- Game.Tick: requires a non-empty snake while the speed is set, because the code reads `snake[0]`. Every reachable state has one (`Invariants.Inv`). The empty-array path is left out because in JavaScript it would compute with `undefined`.
- React state batching and stale closures are not modelled, apart from the food generator's captured snake. The functional updaters for score and speed are modelled as direct arithmetic on the state.
- JavaScript numbers are modelled as unbounded integers. Coordinates stay in [-1, 20] and the score grows by at most one per tick, only on a tick that eats, so no rounding can happen.

=== FILE: food_placement.dfy ===
/** Where the food generator looks for a free cell. It closes over the snake
    of the render it was created in, so the game loop places new food against
    the snake before the tick, and the start button against the snake before
    the reset. Both can put the food under the snake. This module exhibits
    both cases, and gives the corrected placement, against the snake the state
    holds afterwards, with the food kept off the snake as a proved invariant. */
module FoodPlacement {
  import opened Types
  import opened Game
  import opened Invariants
  import opened Runs

  /** The food lies on a free cell. */
  predicate FoodOffSnake(st: State) {
    st.food !in st.snake
  }

  // ---------------------------------------------------------------------------
  // As written

  /** Start the game from the mounted component with the food drawn at
      (11,10), then let the interval fire once with the sample (11,10): the
      head eats at (11,10), and the sample misses the snake before the tick,
      (10,10), so the new food is placed under the new head. */
  lemma EatenFoodCanLandOnHead()
    ensures var events := [StartClick([Coords(11, 10)]), Timer([Coords(11, 10)])];
            && Feasible(Mounted, events)
            && var r := Run(Mounted, events);
            && r.snake == [Coords(11, 10), Coords(10, 10)]
            && r.score == 1 && r.speed == Some(195)
            && r.food == r.snake[0]
  {
    var events := [StartClick([Coords(11, 10)]), Timer([Coords(11, 10)])];
    var sample := [Coords(11, 10)];
    assert DrawsOk(Mounted.snake, sample) by {
      assert sample[0] !in Mounted.snake;
    }
    var started := Start(Mounted, sample);
    assert started.food == Coords(11, 10);
    assert !HitsBody(NextHead(started), started.snake);
    assert DrawsOk(started.snake, sample) by {
      assert sample[0] !in started.snake;
    }
    var eaten := Tick(started, sample);
    assert eaten.food == Coords(11, 10);
    assert events[1..][1..] == [];
  }

  /** The events of a lost game: start with the food drawn at (0,0), then
      let the snake run right until it hits the wall at x = 20. */
  function LostGame(): seq<Event> {
    [StartClick([Coords(0, 0)])] + Ticks(10)
  }

  /** The lost game ends with the snake at (19,10). */
  lemma LostGameEndsAtWall()
    ensures Feasible(Mounted, LostGame())
    ensures Run(Mounted, LostGame()) ==
            State([Coords(19, 10)], Coords(0, 0), Right, None, true, 0)
  {
    var start := [StartClick([Coords(0, 0)])];
    var sample := [Coords(0, 0)];
    assert DrawsOk(Mounted.snake, sample) by {
      assert sample[0] !in Mounted.snake;
    }
    var started := Start(Mounted, sample);
    assert Feasible(Mounted, start) && Run(Mounted, start) == started by {
      assert start[1..] == [];
    }
    GlideIntoRightWall(started, 9);
    RunConcat(Mounted, start, Ticks(10));
  }

  /** After any run that ends outside the running phase and leaves the
      starting cell (10,10) free, restarting
      with the sample (10,10) puts the food under the new snake. */
  lemma RestartOnFreeStartCell(events: seq<Event>)
    requires Feasible(Mounted, events)
    requires StatusOf(Run(Mounted, events)) != Running
    requires Coords(10, 10) !in Run(Mounted, events).snake
    ensures var restarted := events + [StartClick([Coords(10, 10)])];
            && Feasible(Mounted, restarted)
            && var r := Run(Mounted, restarted);
            && r.snake == [Coords(10, 10)]
            && r.food == r.snake[0]
  {
    var before := Run(Mounted, events);
    var restart := [StartClick([Coords(10, 10)])];
    var resample := [Coords(10, 10)];
    assert DrawsOk(before.snake, resample) by {
      assert resample[0] !in before.snake;
    }
    assert Feasible(before, restart) && Run(before, restart) == Start(before, resample) by {
      assert restart[1..] == [];
    }
    RunConcat(Mounted, events, restart);
  }

  /** Restarting the lost game with the sample (10,10): the sample misses the
      snake of the lost game, at (19,10), so the food starts under the new
      snake. */
  lemma RestartFoodCanLandOnSnake()
    ensures var events := LostGame() + [StartClick([Coords(10, 10)])];
            && Feasible(Mounted, events)
            && Run(Mounted, events).snake == [Coords(10, 10)]
            && Run(Mounted, events).food == Coords(10, 10)
  {
    LostGameEndsAtWall();
    RestartOnFreeStartCell(LostGame());
  }

  /** The snake covers every cell of the board. */
  ghost predicate CoversBoard(snake: seq<Coords>) {
    forall c :: InBoard(c) ==> c in snake
  }

  /** A snake that covers the whole board leaves the rejection loop nothing to
      accept: no stream of samples ends it, so the restart button can never
      finish from such a state. */
  lemma FullBoardBlocksRestart(st: State)
    requires CoversBoard(st.snake)
    ensures forall draws :: !DrawsOk(st.snake, draws)
    ensures forall draws :: !Enabled(st, StartClick(draws))
  {
  }

  // ---------------------------------------------------------------------------
  // Corrected

  /** The game loop with the food placed against the snake after the tick. */
  function TickFixed(st: State, draws: seq<Coords>): (r: State)
    requires st.speed.Some? ==> |st.snake| >= 1
    requires Eats(st) ==> DrawsOk([NextHead(st)] + st.snake, draws)
    ensures r.snake == Tick(st, draws).snake && r.score == Tick(st, draws).score
    ensures r.speed == Tick(st, draws).speed && r.isGameOver == Tick(st, draws).isGameOver
    ensures FoodOffSnake(st) ==> FoodOffSnake(r)
  {
    if Eats(st) then
      var grown := [NextHead(st)] + st.snake;
      assert DrawsOk(st.snake, draws) by {
        var k :| 0 <= k < |draws| && draws[k] !in grown;
        assert forall c :: c in st.snake ==> c in grown;
      }
      var r := Tick(st, draws);
      assert r.snake == grown;
      r.(food := PlaceFood(r.snake, draws))
    else
      var r := Tick(st, draws);
      assert FoodOffSnake(st) && st.speed.Some? && r.snake != st.snake ==> FoodOffSnake(r) by {
        if FoodOffSnake(st) && st.speed.Some? && r.snake != st.snake {
          var n := |st.snake|;
          assert r.snake == [NextHead(st)] + st.snake[..n - 1];
          assert forall c :: c in st.snake[..n - 1] ==> c in st.snake;
        }
      }
      r
  }

  /** The start button with the food placed against the snake it installs.
      The result does not depend on the state before the click. */
  function StartFixed(draws: seq<Coords>): (r: State)
    requires DrawsOk(InitialSnake, draws)
    ensures StatusOf(r) == Running && |r.snake| == 1 && r.score == 0
    ensures Inv(r)
    ensures FoodOffSnake(r)
  {
    Restarted(PlaceFood(InitialSnake, draws))
  }

  /** The corrected restart finishes from any state, a full board included:
      every sample other than (10,10) ends the rejection loop. */
  lemma StartFixedFinishes(c: Coords)
    requires InBoard(c) && c != Coords(10, 10)
    ensures DrawsOk(InitialSnake, [c])
    ensures StartFixed([c]).food == c && Inv(StartFixed([c]))
  {
  }

  /** With the corrected placement, the food never lies under the snake, and
      the invariant of the game is kept as before. */
  lemma TickFixedPreserves(st: State, draws: seq<Coords>)
    requires Inv(st) && FoodOffSnake(st)
    requires Eats(st) ==> DrawsOk([NextHead(st)] + st.snake, draws)
    ensures Inv(TickFixed(st, draws)) && FoodOffSnake(TickFixed(st, draws))
  {
    if Eats(st) {
      var grown := [NextHead(st)] + st.snake;
      assert DrawsOk(st.snake, draws) by {
        var k :| 0 <= k < |draws| && draws[k] !in grown;
        assert forall c :: c in st.snake ==> c in grown;
      }
      TickPreservesInv(st, draws);
    } else {
      TickPreservesInv(st, draws);
    }
  }
}

=== FILE: game.dfy ===
/** The Snake simulation held by the App component: its constants, its state
    record, and the transitions behind the start button, the arrow-key handler
    and the interval-driven game loop. Each React `useState` slot is a field of
    `State`; each handler is a pure function from the state before to the state
    after. */
module Game {
  import opened Types

  // Game constants.
  const BoardSize: int := 20
  const InitialSnake: seq<Coords> := [Coords(10, 10)]
  const InitialFood: Coords := Coords(5, 5)
  const InitialDirection: Direction := Right
  const InitialSpeed: int := 200
  const SpeedIncrement: int := 5
  /** The floor of the tick period, written inline in the food branch of the loop. */
  const MinSpeed: int := 50

  /** The component's state slots. `speed` is the tick period in milliseconds,
      `None` while no interval is scheduled. */
  datatype State = State(
    snake: seq<Coords>,
    food: Coords,
    direction: Direction,
    speed: Option<int>,
    isGameOver: bool,
    score: int)

  /** The values the state slots hold when the component first mounts. */
  const Mounted: State :=
    State(InitialSnake, InitialFood, InitialDirection, None, false, 0)

  /** The three phases the view distinguishes: the game-over overlay is shown
      when the over-flag is set, the start overlay when the speed is falsy
      (null or 0) and the game is not over, and the bare board otherwise. */
  datatype Status = NotStarted | Running | GameOver

  function StatusOf(st: State): Status {
    if st.isGameOver then GameOver
    else if st.speed.None? || st.speed.value == 0 then NotStarted
    else Running
  }

  /** A cell on the 20 x 20 board: the negation of the wall-collision test. */
  predicate InBoard(c: Coords) {
    0 <= c.x < BoardSize && 0 <= c.y < BoardSize
  }

  predicate AllInBoard(cells: seq<Coords>) {
    forall i :: 0 <= i < |cells| ==> InBoard(cells[i])
  }

  /** No two segments share a cell. */
  predicate Distinct(cells: seq<Coords>) {
    forall i, j :: 0 <= i < j < |cells| ==> cells[i] != cells[j]
  }

  /** Manhattan distance between two cells. */
  function Distance(a: Coords, b: Coords): nat {
    (if a.x <= b.x then b.x - a.x else a.x - b.x)
    + (if a.y <= b.y then b.y - a.y else a.y - b.y)
  }

  // ---------------------------------------------------------------------------
  // Movement

  /** The cell one unit from `c` in heading `d`; the row index grows downwards. */
  function Move(c: Coords, d: Direction): (r: Coords)
    ensures Distance(c, r) == 1
    ensures IsVertical(d) ==> r.x == c.x
    ensures !IsVertical(d) ==> r.y == c.y
  {
    match d
    case Up => Coords(c.x, c.y - 1)
    case Down => Coords(c.x, c.y + 1)
    case Left => Coords(c.x - 1, c.y)
    case Right => Coords(c.x + 1, c.y)
  }

  /** Where the head goes on the next tick. */
  function NextHead(st: State): Coords
    requires |st.snake| >= 1
  {
    Move(st.snake[0], st.direction)
  }

  // ---------------------------------------------------------------------------
  // Collision

  /** The self-collision test compares the new head with the segments at
      indices 1 .. |snake| - 1 of the snake before the tick, tail included. */
  predicate HitsBody(head: Coords, snake: seq<Coords>) {
    exists i :: 1 <= i < |snake| && snake[i] == head
  }

  /** The self-collision loop as the game loop runs it. */
  method SelfCollision(head: Coords, snake: seq<Coords>) returns (hit: bool)
    ensures hit <==> HitsBody(head, snake)
    ensures hit ==> |snake| >= 2
  {
    var i := 1;
    while i < |snake|
      invariant 1 <= i
      invariant i <= |snake| || |snake| == 0
      invariant forall j :: 1 <= j < i && j < |snake| ==> snake[j] != head
    {
      if head == snake[i] {
        return true;
      }
      i := i + 1;
    }
    return false;
  }

  /** The next tick ends the game: the new head leaves the board or lands on
      the body. */
  predicate Collides(st: State)
    requires |st.snake| >= 1
  {
    !InBoard(NextHead(st)) || HitsBody(NextHead(st), st.snake)
  }

  /** The next tick runs and moves the head onto the food. */
  predicate Eats(st: State) {
    && st.speed.Some?
    && |st.snake| >= 1
    && !Collides(st)
    && NextHead(st) == st.food
  }

  // ---------------------------------------------------------------------------
  // Speed

  /** The functional update of the speed slot on eating: a truthy period is
      shortened by the increment down to the floor; a null or zero period
      becomes null. */
  function SpeedAfterFood(prev: Option<int>): (r: Option<int>)
    ensures r.Some? <==> prev.Some? && prev.value != 0
    ensures r.Some? ==> MinSpeed <= r.value
    ensures r.Some? && MinSpeed + SpeedIncrement <= prev.value ==> r.value == prev.value - SpeedIncrement
    ensures r.Some? && prev.value <= MinSpeed + SpeedIncrement ==> r.value == MinSpeed
  {
    if prev.Some? && prev.value != 0 then
      Some(if prev.value - SpeedIncrement < MinSpeed then MinSpeed else prev.value - SpeedIncrement)
    else
      None
  }

  // ---------------------------------------------------------------------------
  // Food placement

  /** Some sample misses the snake, so the rejection loop finishes. */
  predicate HasFreeDraw(snake: seq<Coords>, draws: seq<Coords>) {
    exists k :: 0 <= k < |draws| && draws[k] !in snake
  }

  /** A usable stream of samples: each is a pair of `floor(random() * 20)`
      values, hence on the board, and the loop can finish on it. */
  predicate DrawsOk(snake: seq<Coords>, draws: seq<Coords>) {
    AllInBoard(draws) && HasFreeDraw(snake, draws)
  }

  /** Rejection sampling: the first sample of `draws` that is not a cell of
      `snake`. The samples stand for successive calls of the random source. */
  function PlaceFood(snake: seq<Coords>, draws: seq<Coords>): (r: Coords)
    requires DrawsOk(snake, draws)
    ensures InBoard(r)
    ensures r !in snake
    ensures exists k :: 0 <= k < |draws| && draws[k] == r
                        && forall j :: 0 <= j < k ==> draws[j] in snake
    decreases |draws|
  {
    if draws[0] !in snake then
      draws[0]
    else
      var rest := draws[1..];
      assert DrawsOk(snake, rest) by {
        var k :| 0 <= k < |draws| && draws[k] !in snake;
        assert k != 0 && rest[k - 1] == draws[k];
      }
      var r := PlaceFood(snake, rest);
      assert exists k :: 0 <= k < |draws| && draws[k] == r
                         && forall j :: 0 <= j < k ==> draws[j] in snake by {
        var k :| 0 <= k < |rest| && rest[k] == r
                 && forall j :: 0 <= j < k ==> rest[j] in snake;
        assert draws[k + 1] == r;
        assert forall j :: 0 <= j < k + 1 ==> draws[j] in snake by {
          forall j | 0 <= j < k + 1
            ensures draws[j] in snake
          {
            if j > 0 {
              assert draws[j] == rest[j - 1];
            }
          }
        }
      }
      r
  }

  // ---------------------------------------------------------------------------
  // Transitions

  /** The start button. Every slot is reset, but the food is placed against
      the snake as it was before the reset, because the food generator
      closes over the snake of the current render. */
  function Start(st: State, draws: seq<Coords>): (r: State)
    requires DrawsOk(st.snake, draws)
    ensures StatusOf(r) == Running && !r.isGameOver
    ensures r.snake == [Coords(10, 10)] && r.speed == Some(200)
    ensures r.score == 0 && r.direction == Right
    ensures InBoard(r.food) && r.food !in st.snake
  {
    Restarted(PlaceFood(st.snake, draws))
  }

  /** Every slot at its start value, with the food at `food`. */
  function Restarted(food: Coords): State {
    State(InitialSnake, food, InitialDirection, Some(InitialSpeed), false, 0)
  }

  /** The keys the key handler reacts to; every other key is ignored. */
  datatype Key = ArrowUp | ArrowDown | ArrowLeft | ArrowRight | OtherKey

  /** The heading an arrow key asks for. */
  function Requested(key: Key): Direction
    requires !key.OtherKey?
  {
    match key
    case ArrowUp => Up
    case ArrowDown => Down
    case ArrowLeft => Left
    case ArrowRight => Right
  }

  /** The arrow-key handler: the heading changes at once, unless the key asks
      for the heading opposite to the current one. */
  function HandleKeyDown(st: State, key: Key): (r: State)
    ensures r == st.(direction := r.direction)
    ensures r.direction != Opposite(st.direction)
    ensures key.OtherKey? ==> r == st
    ensures !key.OtherKey? ==>
              (r.direction == Requested(key) <==> Requested(key) != Opposite(st.direction))
    ensures !key.OtherKey? && r.direction != Requested(key) ==> r == st
  {
    match key
    case ArrowUp => if st.direction != Down then st.(direction := Up) else st
    case ArrowDown => if st.direction != Up then st.(direction := Down) else st
    case ArrowLeft => if st.direction != Right then st.(direction := Left) else st
    case ArrowRight => if st.direction != Left then st.(direction := Right) else st
    case OtherKey => st
  }

  /** One firing of the game loop. No interval is scheduled while the speed
      is null, so the tick then changes nothing. On eating, the new food is
      placed against the snake as it was before the tick. */
  function Tick(st: State, draws: seq<Coords>): (r: State)
    requires st.speed.Some? ==> |st.snake| >= 1
    requires Eats(st) ==> DrawsOk(st.snake, draws)
    ensures st.speed.None? ==> r == st
    ensures r.direction == st.direction
    ensures |r.snake| == |st.snake| || |r.snake| == |st.snake| + 1
    ensures |r.snake| - |st.snake| == r.score - st.score
    ensures r.isGameOver != st.isGameOver ==> r.speed.None? && r.snake == st.snake && r.food == st.food
    ensures r.snake != st.snake ==>
              && |st.snake| >= 1 && |r.snake| >= 1
              && Distance(r.snake[0], st.snake[0]) == 1
              && r.snake[1..] == st.snake[..|r.snake| - 1]
    ensures r.food != st.food ==> r.score == st.score + 1 && InBoard(r.food) && r.food !in st.snake
  {
    if st.speed.None? then st
    else
      var head := NextHead(st);
      if !InBoard(head) then
        st.(isGameOver := true, speed := None)
      else if HitsBody(head, st.snake) then
        st.(isGameOver := true, speed := None)
      else
        var grown := [head] + st.snake;
        if head == st.food then
          st.(snake := grown, score := st.score + 1, speed := SpeedAfterFood(st.speed),
              food := PlaceFood(st.snake, draws))
        else
          st.(snake := grown[..|grown| - 1])
  }
}

=== FILE: invariants.dfy ===
/** The invariant every reachable state keeps, through every run of user and
    timer events from the mounted component. */
module Invariants {
  import opened Types
  import opened Game
  import opened Runs

  /** The period after `score` foods: the initial period less one increment
      per food, but never below the floor. */
  function SpeedForScore(score: nat): (r: int)
    ensures MinSpeed <= r <= InitialSpeed
  {
    if InitialSpeed - SpeedIncrement * score < MinSpeed then MinSpeed
    else InitialSpeed - SpeedIncrement * score
  }

  /** The snake is non-empty, on the board and free of overlaps; it is one
      segment longer than the score; the food is on the board; a scheduled
      period is the one the score determines, hence between the floor and
      the initial period; and a finished game has no interval. */
  predicate Inv(st: State) {
    && |st.snake| >= 1
    && AllInBoard(st.snake)
    && Distinct(st.snake)
    && |st.snake| == st.score + 1
    && InBoard(st.food)
    && (st.speed.Some? ==> st.speed.value == SpeedForScore(st.score))
    && (st.isGameOver ==> st.speed.None?)
  }

  /** The mounted component satisfies the invariant and shows the start
      overlay. */
  lemma MountedInv()
    ensures Inv(Mounted)
    ensures StatusOf(Mounted) == NotStarted
  {
  }

  /** Under the invariant the interval runs exactly in the running phase. */
  lemma StatusUnderInv(st: State)
    requires Inv(st)
    ensures StatusOf(st) == Running <==> st.speed.Some?
    ensures StatusOf(st) == GameOver <==> st.isGameOver
  {
  }

  /** The start and restart buttons sit on the start and game-over overlays,
      so under the invariant a click arrives exactly when no interval is
      scheduled (and the samples can end the food loop). */
  lemma StartClickOnlyOnOverlay(st: State, draws: seq<Coords>)
    requires Inv(st)
    ensures Enabled(st, StartClick(draws)) <==> st.speed.None? && DrawsOk(st.snake, draws)
  {
  }

  /** A move that does not collide keeps the segments distinct: the new head
      differs from the old head by one unit and from every later segment by
      the self-collision test. */
  lemma GrownDistinct(st: State)
    requires |st.snake| >= 1 && Distinct(st.snake)
    requires !HitsBody(NextHead(st), st.snake)
    ensures Distinct([NextHead(st)] + st.snake)
    ensures Distinct([NextHead(st)] + st.snake[..|st.snake| - 1])
  {
  }

  /** One tick keeps the invariant, whatever it does. */
  lemma TickPreservesInv(st: State, draws: seq<Coords>)
    requires Inv(st)
    requires Eats(st) ==> DrawsOk(st.snake, draws)
    ensures Inv(Tick(st, draws))
  {
  }

  /** The start button establishes the invariant from any state. */
  lemma StartEstablishesInv(st: State, draws: seq<Coords>)
    requires DrawsOk(st.snake, draws)
    ensures Inv(Start(st, draws))
  {
  }

  /** A key press keeps the invariant. */
  lemma KeyPreservesInv(st: State, key: Key)
    requires Inv(st)
    ensures Inv(HandleKeyDown(st, key))
  {
  }

  // ---------------------------------------------------------------------------
  // Runs

  /** Every event keeps the invariant. */
  lemma ApplyPreservesInv(st: State, e: Event)
    requires Inv(st) && Enabled(st, e)
    ensures Inv(Apply(st, e))
  {
    match e
    case KeyPress(key) => KeyPreservesInv(st, key);
    case Timer(draws) => TickPreservesInv(st, draws);
    case StartClick(draws) => StartEstablishesInv(st, draws);
  }

  /** Every run keeps the invariant. */
  lemma {:induction false} RunPreservesInv(st: State, events: seq<Event>)
    requires Inv(st) && Feasible(st, events)
    ensures Inv(Run(st, events))
    decreases |events|
  {
    if |events| > 0 {
      ApplyPreservesInv(st, events[0]);
      RunPreservesInv(Apply(st, events[0]), events[1..]);
    }
  }

  /** From the mounted component, whatever the player and the random source
      do, the snake stays on the board without overlaps, and a scheduled
      period stays between 50 and 200 milliseconds. */
  lemma Reachable(events: seq<Event>)
    requires Feasible(Mounted, events)
    ensures var st := Run(Mounted, events);
            && AllInBoard(st.snake) && Distinct(st.snake)
            && (st.speed.Some? ==> MinSpeed <= st.speed.value <= InitialSpeed)
            && |st.snake| == st.score + 1
  {
    MountedInv();
    RunPreservesInv(Mounted, events);
  }
}

=== FILE: runs.dfy ===
/** Runs of user and timer events from a state: which events can arrive, what
    each does, and what a run of interval firings does to a lone segment
    heading right. */
module Runs {
  import opened Types
  import opened Game

  /** What can happen to the component: a key press, a firing of the interval,
      or a click on the start or restart button. Ticks and clicks carry the
      random samples the food generator would draw. */
  datatype Event =
    | KeyPress(key: Key)
    | Timer(draws: seq<Coords>)
    | StartClick(draws: seq<Coords>)

  /** The event can be applied in `st`. The start and restart buttons are
      only rendered on the start and game-over overlays, so a click needs a
      game that is not running. Food is only generated from samples that can
      end the rejection loop. */
  predicate Enabled(st: State, e: Event) {
    match e
    case KeyPress(_) => true
    case Timer(draws) =>
      && (st.speed.Some? ==> |st.snake| >= 1)
      && (Eats(st) ==> DrawsOk(st.snake, draws))
    case StartClick(draws) => StatusOf(st) != Running && DrawsOk(st.snake, draws)
  }

  function Apply(st: State, e: Event): State
    requires Enabled(st, e)
  {
    match e
    case KeyPress(key) => HandleKeyDown(st, key)
    case Timer(draws) => Tick(st, draws)
    case StartClick(draws) => Start(st, draws)
  }

  /** Every event of the run is enabled when it arrives. */
  predicate Feasible(st: State, events: seq<Event>)
    decreases |events|
  {
    |events| == 0 || (Enabled(st, events[0]) && Feasible(Apply(st, events[0]), events[1..]))
  }

  function Run(st: State, events: seq<Event>): State
    requires Feasible(st, events)
    decreases |events|
  {
    if |events| == 0 then st else Run(Apply(st, events[0]), events[1..])
  }

  /** Running an event and then a sequence is running the sequence with the
      event in front. */
  lemma RunCons(st: State, e: Event, rest: seq<Event>)
    requires Enabled(st, e) && Feasible(Apply(st, e), rest)
    ensures Feasible(st, [e] + rest)
    ensures Run(st, [e] + rest) == Run(Apply(st, e), rest)
  {
    assert ([e] + rest)[0] == e && ([e] + rest)[1..] == rest;
  }

  /** Running two event sequences one after the other is running their
      concatenation. */
  lemma {:induction false} RunConcat(st: State, first: seq<Event>, second: seq<Event>)
    requires Feasible(st, first) && Feasible(Run(st, first), second)
    ensures Feasible(st, first + second)
    ensures Run(st, first + second) == Run(Run(st, first), second)
    decreases |first|
  {
    if |first| > 0 {
      assert (first + second)[0] == first[0];
      assert (first + second)[1..] == first[1..] + second;
      RunConcat(Apply(st, first[0]), first[1..], second);
    } else {
      assert first + second == second;
    }
  }

  // ---------------------------------------------------------------------------
  // Interval firings

  /** `n` firings of the interval with no samples. */
  function Ticks(n: nat): seq<Event> {
    if n == 0 then [] else [Timer([])] + Ticks(n - 1)
  }

  /** One more firing goes at the end as well as at the front. */
  lemma {:induction false} TicksSnoc(n: nat)
    ensures Ticks(n + 1) == Ticks(n) + [Timer([])]
    decreases n
  {
    if n > 0 {
      TicksSnoc(n - 1);
    }
  }

  /** One firing moves a lone segment heading right one cell along its row
      when the food is not in the way. */
  lemma StepRight(st: State)
    requires st.speed.Some? && st.direction == Right && |st.snake| == 1
    requires InBoard(st.snake[0]) && st.snake[0].x + 1 < BoardSize
    requires st.food != Coords(st.snake[0].x + 1, st.snake[0].y)
    ensures Enabled(st, Timer([]))
    ensures Apply(st, Timer([])) == st.(snake := [Coords(st.snake[0].x + 1, st.snake[0].y)])
  {
    assert !HitsBody(NextHead(st), st.snake);
  }

  /** A one-segment snake heading right with no food in its way glides `n`
      cells along its row while it stays on the board. */
  lemma {:induction false} GlideRight(st: State, n: nat)
    requires st.speed.Some? && st.direction == Right && |st.snake| == 1
    requires InBoard(st.snake[0]) && st.snake[0].x + n < BoardSize
    requires st.food.y != st.snake[0].y || st.food.x <= st.snake[0].x
             || st.food.x > st.snake[0].x + n
    ensures Feasible(st, Ticks(n))
    ensures Run(st, Ticks(n)) == st.(snake := [Coords(st.snake[0].x + n, st.snake[0].y)])
    decreases n
  {
    if n > 0 {
      var next := st.(snake := [Coords(st.snake[0].x + 1, st.snake[0].y)]);
      StepRight(st);
      GlideRight(next, n - 1);
      RunCons(st, Timer([]), Ticks(n - 1));
      assert Ticks(n) == [Timer([])] + Ticks(n - 1);
    }
  }

  /** A one-segment snake heading right with no food in its way glides to
      the last column and dies at the wall on the next tick. */
  lemma GlideIntoRightWall(st: State, n: nat)
    requires st.speed.Some? && st.direction == Right && |st.snake| == 1
    requires InBoard(st.snake[0]) && st.snake[0].x + n == BoardSize - 1
    requires st.food.y != st.snake[0].y || st.food.x <= st.snake[0].x
    ensures Feasible(st, Ticks(n + 1))
    ensures Run(st, Ticks(n + 1)) ==
            st.(snake := [Coords(BoardSize - 1, st.snake[0].y)], isGameOver := true, speed := None)
  {
    GlideRight(st, n);
    var edge := Run(st, Ticks(n));
    var crash := [Timer([])];
    assert Feasible(edge, crash) && Run(edge, crash) == Tick(edge, []) by {
      assert crash[1..] == [];
    }
    TicksSnoc(n);
    RunConcat(st, Ticks(n), crash);
  }
}

=== FILE: tick_properties.dfy ===
/** The outcomes of one firing of the game loop, case by case, and the
    behaviours of the key handler that follow from applying headings at once. */
module TickProperties {
  import opened Types
  import opened Game

  /** A head that leaves the board ends the game; the loop returns before the
      snake, the score or the food are written. */
  lemma WallCollisionEndsGame(st: State, draws: seq<Coords>)
    requires st.speed.Some? && |st.snake| >= 1
    requires !InBoard(NextHead(st))
    ensures Tick(st, draws) == st.(isGameOver := true, speed := None)
    ensures StatusOf(Tick(st, draws)) == GameOver
  {
  }

  /** A head that lands on any segment after the first, the tail included,
      ends the game with the snake left as it was. */
  lemma SelfCollisionEndsGame(st: State, draws: seq<Coords>, i: int)
    requires st.speed.Some? && 1 <= i < |st.snake|
    requires NextHead(st) == st.snake[i]
    ensures Tick(st, draws) == st.(isGameOver := true, speed := None)
  {
    assert InBoard(NextHead(st)) ==> HitsBody(NextHead(st), st.snake);
  }

  /** Chasing the tail is fatal even though the tail would move away this
      tick: the check runs against the body before the tail is dropped. */
  lemma MovingOntoTailEndsGame(st: State, draws: seq<Coords>)
    requires st.speed.Some? && |st.snake| >= 2
    requires NextHead(st) == st.snake[|st.snake| - 1]
    ensures Tick(st, draws).isGameOver
    ensures Tick(st, draws).snake == st.snake
  {
    SelfCollisionEndsGame(st, draws, |st.snake| - 1);
  }

  /** Skipping index 0 in the self-collision test loses nothing: the new head
      is never the old head, so it hits a later segment exactly when it lands
      anywhere on the snake. */
  lemma HitsBodyIffOnSnake(st: State)
    requires |st.snake| >= 1
    ensures HitsBody(NextHead(st), st.snake) <==> NextHead(st) in st.snake
  {
    if NextHead(st) in st.snake {
      var i :| 0 <= i < |st.snake| && st.snake[i] == NextHead(st);
      assert i != 0;
    }
  }

  /** A tick that neither collides nor eats shifts the snake: the head is
      prepended and the tail is dropped, and nothing else changes. */
  lemma PlainMove(st: State, draws: seq<Coords>)
    requires st.speed.Some? && |st.snake| >= 1
    requires !Collides(st) && NextHead(st) != st.food
    ensures Tick(st, draws).snake == [NextHead(st)] + st.snake[..|st.snake| - 1]
    ensures |Tick(st, draws).snake| == |st.snake|
    ensures Tick(st, draws) == st.(snake := Tick(st, draws).snake)
  {
  }

  /** An eating tick keeps the tail, scores one, shortens the period by the
      increment down to the floor, and puts the food on a free cell of the
      snake before the tick. */
  lemma Eating(st: State, draws: seq<Coords>)
    requires Eats(st) && DrawsOk(st.snake, draws)
    ensures Tick(st, draws).snake == [NextHead(st)] + st.snake
    ensures |Tick(st, draws).snake| == |st.snake| + 1
    ensures Tick(st, draws).score == st.score + 1
    ensures st.speed.value != 0 ==>
              Tick(st, draws).speed ==
                Some(if st.speed.value - SpeedIncrement < MinSpeed then MinSpeed
                     else st.speed.value - SpeedIncrement)
    ensures Tick(st, draws).food == PlaceFood(st.snake, draws)
    ensures Tick(st, draws).direction == st.direction && Tick(st, draws).isGameOver == st.isGameOver
  {
  }

  /** The new head is one unit from the old head along the axis of the
      heading: up decreases the row, down increases it, left decreases the
      column, right increases it. */
  lemma HeadStep(st: State, draws: seq<Coords>)
    requires st.speed.Some? && |st.snake| >= 1 && !Collides(st)
    requires Eats(st) ==> DrawsOk(st.snake, draws)
    ensures var h := Tick(st, draws).snake[0];
            && (st.direction == Up ==> h == Coords(st.snake[0].x, st.snake[0].y - 1))
            && (st.direction == Down ==> h == Coords(st.snake[0].x, st.snake[0].y + 1))
            && (st.direction == Left ==> h == Coords(st.snake[0].x - 1, st.snake[0].y))
            && (st.direction == Right ==> h == Coords(st.snake[0].x + 1, st.snake[0].y))
  {
  }

  /** The head never moves back onto its own cell, and the reverse heading
      brings it back. */
  lemma MoveThenOppositeReturns(c: Coords, d: Direction)
    ensures Move(c, d) != c
    ensures Move(Move(c, d), Opposite(d)) == c
  {
  }

  /** A tick with no interval scheduled changes nothing, in particular after
      the game is over. */
  lemma TickWithoutIntervalIsNoOp(st: State, draws: seq<Coords>)
    requires st.speed.None?
    ensures Tick(st, draws) == st
  {
  }

  /** The guard compares with the heading of the moment, and an accepted key
      changes it at once, so two quick presses between ticks reverse the snake:
      right, then up, then left. The following tick runs the head into the
      neck. */
  lemma QuickTurnReversesSnake()
    ensures var st := State([Coords(5, 5), Coords(4, 5), Coords(3, 5)], Coords(0, 0),
                            Right, Some(190), false, 2);
            var turned := HandleKeyDown(HandleKeyDown(st, ArrowUp), ArrowLeft);
            && turned.direction == Opposite(st.direction)
            && Tick(turned, []).isGameOver
  {
    var st := State([Coords(5, 5), Coords(4, 5), Coords(3, 5)], Coords(0, 0),
                    Right, Some(190), false, 2);
    var turned := HandleKeyDown(HandleKeyDown(st, ArrowUp), ArrowLeft);
    assert NextHead(turned) == turned.snake[1];
  }
}

=== FILE: types.dfy ===
/** The value types shared by the game: a board cell, a heading, and an
    optional value for the nullable tick period. */
module Types {

  /** A board cell; the column grows to the right and the row grows downwards. */
  datatype Coords = Coords(x: int, y: int)

  /** The four headings the snake can move in. */
  datatype Direction = Up | Down | Left | Right

  /** A value that may be absent, standing for a nullable field. */
  datatype Option<+T> = None | Some(value: T)

  /** The heading that points the other way along the same axis. */
  function Opposite(d: Direction): (r: Direction)
    ensures r != d
    ensures IsVertical(r) == IsVertical(d)
  {
    match d
    case Up => Down
    case Down => Up
    case Left => Right
    case Right => Left
  }

  /** True for the headings that change the row. */
  predicate IsVertical(d: Direction) {
    d == Up || d == Down
  }
}
